=== FILE: README.md ===
# SSH operations console — a Dafny model

This project models the operator console behind the `App` component of the SSH
Operations Dashboard (`src/App.js`). The console keeps a fixed fleet of fourteen
SSH hosts and one focused host, or the `ALL_HOSTS` sentinel. It also keeps an
editable working copy of the focused session record, a map of bulk-selection
checkboxes, a custom broadcast draft, and a single notification banner that
clears itself eight seconds after it is shown.

The handlers are modelled as pure transitions over an immutable state:
- focus change;
- start, stop and kill of a session, refresh, show details;
- field edit;
- row select and select-all;
- the broadcast target, channel and message box;
- the Send button.

Each handler that shows a banner or stamps a time takes a logical millisecond
clock. Delivery through `broadcastToChannel` is a collaborator passed in as a
function from a send to its reply.

Modules, one per file:
- `Notification` (`notification.dfy`): the banner slot. `showMessage` arms a
  clear that nobody cancels. The clears are kept as a list of pending deadlines
  and fire lazily. A trace semantics and a timer-free reference reading are
  proved to agree.
- `Text` (`text.dfy`): JavaScript's `trim`, using the ECMAScript whitespace set,
  and the decimal rendering of a count.
- `Registry` (`registry.dfy`): the session record, the `hostServers` fixture,
  focus scopes, `getCurrentSessionData`, `getFilteredHosts` and the grid
  footer.
- `Selection` (`selection.dfy`): the `selectedSessions` map, the selected
  count and the "All" checkbox.
- `Broadcast` (`broadcast.dfy`): channels, command tags, payloads, the fan-out
  of a custom broadcast, the subscriber total and the target description.
- `Console` (`console.dfy`): the console state, every named handler, and the
  three broadcast controls (target host, channel and message box).

## Timing conventions

- A handler runs to completion at the instant the operator acts.
- A broadcast's reply arrives `Latency` = 1500 ms later, the simulated AppSync
  round trip. A refresh reports `RefreshDelay` = 1000 ms later.
- A clear due at an instant fires before a banner shown at that same instant.

## Quirks of the code that the model keeps

- The comment at `src/App.js:193` calls the timer an auto-clear of the message
  just shown, but the timer is never cancelled. A clear armed by an earlier
  `showMessage` empties a newer banner before that banner's own deadline. Every
  broadcast first shows a "loading" banner, so the report shown 1500 ms later is
  wiped at 8000 ms, not at 9500 ms.
- `handleHostChange('ALL_HOSTS')` calls `getCurrentSessionData()` through the
  render's closure, which still sees the old focus. The working copy therefore
  reloads the previously focused host's fixture record. It gets the "Multiple
  Hosts" placeholder only when every host was already in focus.
- The initial state focuses `ALL_HOSTS` but holds `server-01`'s record as the
  working copy.
- Start, stop and kill broadcast the fixture record's identity fields, not the
  edited working copy. Their status update goes to the working copy only. The
  fleet itself is never updated.
- The working copy is updated before the send, so a rejected delivery leaves
  the update in place.
- `showSessionDetails` has no scope guard. It broadcasts the working copy as it
  stands.
- Refresh with every host in focus re-stamps no record.
- The kill reason travels only in the payload.
- A custom broadcast with any rejected delivery reports one error and keeps the
  draft. The draft is cleared only when every delivery succeeds.
- The footer statistics read the fixture, not the working copy.

## Model

| member | source | states |
|---|---|---|
| Notification.Show | src/App.js:190-198 | `showMessage` replaces the banner with the new text and kind; the clears still armed are the new one at now+8000 and exactly the earlier ones not yet due |
| Notification.Put | src/App.js:271-274 | a direct `setMessage`/`setMessageType` replaces the banner and arms no clear; earlier clears that are not yet due stay armed |
| Notification.Expire | src/App.js:194-197 | when the clock reaches `now`, any due clear empties the slot; otherwise the banner is unchanged; the clears left are exactly those due after `now` |
| Notification.Remaining | src/App.js:194-197 | the deadlines left after firing are exactly the armed ones later than `now`, and none of them is due |
| Notification.View | src/App.js:190-198 | the operator sees nothing once some armed clear is due, and otherwise the last banner shown |
| Notification.ShownBannerExpires | src/App.js:193-197 | a banner shown at t is gone at every instant from t+8000 on, whatever was armed before |
| Notification.ShownBannerVisible | src/App.js:190-198 | a banner shown at t stays on screen until t+8000, unless an earlier clear falls due first |
| Notification.StaleClearWipesNewerBanner | src/App.js:194-197 | a clear armed before t and due after t empties the banner shown at t, before that banner's own deadline |
| Notification.RunPending | src/App.js:194-197 | after a chronological history of calls, the armed clears are exactly the calls' deadlines that lie after the last call |
| Notification.RunMatchesVisible | src/App.js:190-198 | the timer-driven slot agrees at every instant with the timer-free reading: the latest call is shown unless some call's deadline lies between it and now |
| Notification.LatestCallOnly | src/App.js:190-198 | only the latest call's banner can be on screen, and it is gone from its own deadline on |
| Notification.StaleClearExample | src/App.js:190-198 | banners at 0 and 1500: the newer one is visible at 7999 and already gone at 8000, 1500 ms before its own deadline |
| Text.TrimStart | src/App.js:762 | the result is the suffix of the input after a blank prefix, and it does not start with whitespace |
| Text.TrimEnd | src/App.js:762 | the result is the prefix of the input before a blank suffix, and it does not end with whitespace |
| Text.Trim | src/App.js:762 | `trim()` returns the middle of the text between a blank prefix and a blank suffix, with no whitespace at either end |
| Text.TrimEmptyIffBlank | src/App.js:762-765 | `trim()` gives the empty string exactly when every character is ECMAScript whitespace |
| Text.NatToString | src/App.js:786 | a count renders as a non-empty string of decimal digits with no leading zero |
| Text.NatToStringRoundTrip | src/App.js:786 | reading the rendered digits back gives the count |
| Registry.HostIds | src/App.js:782 | `Object.keys(hostServers)` lists each record's key, in fleet order |
| Registry.HostServers | src/App.js:18-159 | the fourteen fixture records, field by field, in key order |
| Registry.Lookup | src/App.js:186 | `hostServers[h]` is a fleet record with key h, and it is the only one when keys are unique |
| Registry.CurrentSessionData | src/App.js:173-188 | the "Multiple Hosts" placeholder for `ALL_HOSTS`, otherwise the focused host's fleet record |
| Registry.FilteredHosts | src/App.js:164-170 | the whole fleet for `ALL_HOSTS`, otherwise exactly one record, the focused host's |
| Registry.Statuses | src/App.js:685-686 | the status column lists each record's status, in fleet order |
| Registry.CountStatus | src/App.js:685-686 | the number of records with status st is st's multiplicity in the status column, and at most the fleet size |
| Registry.CountStatusAppend | src/App.js:685-686 | status counts add up over a split of the fleet |
| Registry.CountsWithinFleet | src/App.js:685-686 | two different statuses together count at most the fleet size |
| Registry.FooterStats | src/App.js:682-692 | for all hosts, the footer is the fleet size with the Connected count and the Disconnected count, which together fit within it; for one host, its own fleet record's host, status, user and machine |
| Registry.HostServersFooter | src/App.js:18-159 | The fixture has exactly 14 records, 9 Connected and 3 Disconnected, so its all-hosts footer reads 14 total, 9 connected, 3 disconnected. |
| Registry.FixtureUnique | src/App.js:18-159 | the fixture's fourteen keys are pairwise distinct |
| Selection.SelectedCount | src/App.js:517 | the ticked count never exceeds the number of entries |
| Selection.Toggle | src/App.js:370-375 | ticking or unticking one host writes that entry only and keeps every other entry |
| Selection.ToggleCount | src/App.js:370-375 | the selected count moves by exactly the change of that one entry |
| Selection.SelectAll | src/App.js:377-383 | select-all gives exactly the fleet's keys, all set to the chosen state |
| Selection.AllChecked | src/App.js:522 | the "All" checkbox's `checked` expression: every entry ticked and at least one entry |
| Selection.SelectAllCount | src/App.js:377-383 | with distinct keys, select-all(true) ticks as many hosts as the fleet has and select-all(false) ticks none |
| Selection.SelectAllRoundTrip | src/App.js:377-383 | unticking all after ticking all keeps the same keys and leaves nothing ticked |
| Selection.AllCheckedIffCount | src/App.js:522 | the "All" box is checked exactly when the map is non-empty and every entry is ticked |
| Selection.AllCheckedAfterSelectAll | src/App.js:519-523 | after select-all the "All" box shows the chosen state, for a non-empty fleet |
| Broadcast.SimulatedDelivery | src/App.js:423-427 | the simulated reply is a receipt for 1 to 10 subscribers with id `msg_<clock>` |
| Broadcast.CommandTag | src/App.js:775-827 | each of the four custom tags is chosen exactly for its (host scope, channel scope) quadrant |
| Broadcast.CommandTagRoundTrip | src/App.js:775-827 | the tag determines both scopes: reading it back recovers which were `ALL` |
| Broadcast.Channels | src/App.js:773 | `ALL` means HOST, USER, AGENT, MACHINE in that order; one channel means just that one |
| Broadcast.TargetOf | src/App.js:782-827 | for all hosts the payload lists every fleet key; for one host it carries the host, machine, user and agent of a fleet record with that key, the only such record when keys are unique |
| Broadcast.Expand | src/App.js:771-833 | 4 sends for `ALL` in fan-out order and 1 for a single channel, each with the quadrant's tag and the message, channel, target, sender and timestamp in its payload |
| Broadcast.FanOutCoversEachChannelOnce | src/App.js:773-785 | an `ALL` request reaches every channel exactly once |
| Broadcast.HostScopeKeepsChannels | src/App.js:771-833 | the host scope changes neither the number of sends nor their channels |
| Broadcast.Deliver | src/App.js:774-784 | one reply per send, in send order |
| Broadcast.Total | src/App.js:835 | the subscriber total of no receipts is 0, and no single receipt exceeds it; its value is pinned by the append and reordering lemmas below |
| Broadcast.TotalAppend | src/App.js:835 | the subscriber total of a concatenation is the sum of the totals |
| Broadcast.TotalRemoveAt | src/App.js:835 | taking one receipt out of the results takes its subscribers out of the total |
| Broadcast.TotalOrderFree | src/App.js:835 | any reordering of the results (the same multiset of replies) has the same subscriber total |
| Broadcast.TotalBounds | src/App.js:835 | n simulated receipts total between n and 10n subscribers |
| Broadcast.TargetDescription | src/App.js:786-831 | one template per quadrant: "All N hosts → All channels", "All N hosts → C channel", "K → All channels", "K → C channel", with N the fleet size, K the focused key and C the channel |
| Broadcast.DescriptionStart | src/App.js:786-831 | the description starts with "All N hosts" or the host key, followed by the arrow |
| Broadcast.DescriptionEnd | src/App.js:786-831 | the description ends with the arrow followed by "All channels" or "C channel" |
| Broadcast.ChannelPartEnding | src/App.js:786-831 | only the all-channels wording ends in "channels" |
| Broadcast.DescriptionRevealsChannelScope | src/App.js:786-831 | the description ends in "channels" exactly when the request went to every channel |
| Broadcast.FixtureDescription | src/App.js:786 | for the fixture the all-hosts, all-channels description is "All 14 hosts → All channels" |
| Console.InitialConsoleFacts | src/App.js:6-161 | the first state is valid and focuses all hosts while holding `server-01.example.com`'s fixture record as the working copy; nothing is selected and no banner is shown |
| Console.HostChange | src/App.js:200-209 | the focus becomes h; a host reloads its fixture record; `ALL_HOSTS` reloads through the stale focus; the banner names the choice through `showMessage`, so the clears armed are now+8000 and the earlier ones not yet due; nothing else changes |
| Console.HostChangeForgetsWorkingCopy | src/App.js:200-209 | the record after a focus change does not depend on the edits made before it |
| Console.HostChangeBannerLasts | src/App.js:190-209 | the focus banner stays up until now+8000 unless an earlier clear falls due first, and is gone at now+8000 |
| Console.ApplyEdit | src/App.js:359-368 | an edit sets its field to the value and keeps every other field |
| Console.EditLastWins | src/App.js:364-367 | a second edit of the same field overrides the first |
| Console.EditsCommute | src/App.js:364-367 | edits of different fields commute |
| Console.FieldEdit | src/App.js:359-368 | a field edit changes the working copy only |
| Console.Effect | src/App.js:219-224 | start sets Connected and stamps both timestamps; stop sets Disconnected and kill sets Terminated, stamping only `lastActivity`; identity and port are kept |
| Console.EffectIdempotent | src/App.js:219-224 | repeating a command at the same instant changes nothing more |
| Console.EffectLatestWins | src/App.js:248-252 | after two commands the status and `lastActivity` are those of the later one |
| Console.Announcement | src/App.js:226-232 | the payload carries the identity and the command's own timestamp; only a kill carries the reason |
| Console.SessionCommand | src/App.js:211-238 | with all hosts in focus: a warning, no send, record unchanged; otherwise: one HOST send with the command's tag and the fixture identity, the command's effect on the working copy, and a report or error banner chosen by the reply; the clears armed are the loading banner's at now+8000, the report's at now+1500+8000, and the earlier ones not yet due |
| Console.CommandPayloadIgnoresEdits | src/App.js:218-232 | edits to the working copy never change what a command broadcasts |
| Console.CommandReportCutShort | src/App.js:386-421 | a command's report is on screen at its own instant and already cleared 8000 ms after the command |
| Console.Refresh | src/App.js:271-300 | no sends; for all hosts the record is untouched; for one host only `lastActivity` is re-stamped; the "refreshing" banner is set directly and arms nothing, so the only new clear is the report's at now+1000+8000 |
| Console.RefreshReportLasts | src/App.js:271-300 | the refresh report stays on screen for its full 8000 ms unless a clear armed before the refresh falls due, and is gone at now+1000+8000 |
| Console.ShowDetails | src/App.js:334-357 | one HOST `SHOW_SESSION` send carrying the working copy, with no change to the record, in every focus; the clears armed are the loading banner's at now+8000, the report's at now+1500+8000, and the earlier ones not yet due |
| Console.DetailsReportCutShort | src/App.js:334-357 | the details report is on screen at now+1500 and already wiped at now+8000 by the loading banner's clear |
| Console.SelectSession | src/App.js:370-375 | a row checkbox changes the selection only |
| Console.SelectAllSessions | src/App.js:377-383 | select-all keys the selection by exactly the fleet's hosts, all with the chosen state, and changes nothing else |
| Console.SelectAllSessionsRoundTrip | src/App.js:377-383 | select-all then unselect-all: the count goes to the fleet size and then to 0, and the "All" box follows |
| Console.FixtureSelectAll | src/App.js:377-383 | on the fourteen-host fixture, select-all ticks 14 rows and checks the "All" box, and unselect-all leaves none ticked |
| Console.FocusCommutesWithSelection | src/App.js:200-209 | focus changes and selection changes commute |
| Console.ChooseMessagingHost | src/App.js:711-714 | the target-host dropdown sets the broadcast target to `ALL_HOSTS` or a fleet key and changes nothing else |
| Console.ChooseChannel | src/App.js:727-732 | a channel button sets the broadcast channel and changes nothing else |
| Console.TypeDraft | src/App.js:752-755 | typing sets the draft to the box's text and changes nothing else |
| Console.BroadcastControlsCommute | src/App.js:711-755 | the three controls write independent fields, so each of the three pairs commutes and the state stays valid |
| Console.Announce | src/App.js:386-388 | n loading banners at one instant leave the loading banner on screen; each call arms a clear at now+8000, and earlier clears not yet due stay armed |
| Console.SendBroadcast | src/App.js:761-845 | a blank draft gets a warning, armed to clear at now+8000, and no sends; otherwise the expansion's sends; the draft is cleared exactly when every delivery succeeds; any rejection gives one error; the clears armed are the loading banners' at now+8000, the report's at now+1500+8000, and the earlier ones not yet due |
| Console.BroadcastReportCutShort | src/App.js:771-841 | a broadcast's report is on screen at now+1500 and already wiped at now+8000 by the loading banners' clears |
| Console.BlankDraftSendsNothing | src/App.js:762-765 | an empty or whitespace-only draft issues no send, and the only change is the "enter a message" warning banner, with its clear armed |
| Console.BroadcastCounts | src/App.js:771-841 | with simulated receipts: 4 or 1 sends, draft cleared, and a total between the number of sends and ten times it |

## Left out

- JSX rendering, CSS, tab switching and layout (`src/App.js:433-880`): presentation only.
- The `editableFields` state: `handleFieldEdit` writes it but nothing ever reads it.
- The row "Disc" button (`src/App.js:660-671`) and the bulk Connect/Disconnect buttons: they are inline JSX handlers, not part of the console's named handlers. The Disc button's two writes are the edits `SetStatus` and `SetLastActivity` of `Console.Edit`, but no transition composes them with its warning banner.
- The commented-out AppSync GraphQL mutation (`src/App.js:390-418`): dead code for a foreign service.
- Real timers, `await` scheduling and `Promise.all` interleaving. Each handler runs to completion on a logical clock, and the reply arrives `Latency` later.
- Date and locale formatting (`toLocaleString`, `toISOString`). Timestamps are opaque logical instants (`Stamp.At`).
- `Math.random` and `Date.now` in `broadcastToChannel`. They are the `roll` and `clock` inputs of `Broadcast.SimulatedDelivery`, and any delivery function can be supplied.
- The emoji and the mis-encoded arrow in the message texts. Banners are the `Note` datatype, one constructor per template. The description separator is the constant `Arrow`, written with the intended "→" character.
- Partial-failure reporting, per-host serialisation of concurrent updates, a cancellable notification timer and port range validation. The code implements none of them, so the model does not either. A port may be `NotANumber`.
- The `catch` branch of `refreshSession`: nothing inside its `try` can throw.
- The test files, `scripts/test-runner.js` and the test utilities: they are test scaffolding with no console logic.
- Console.BroadcastCounts: assumes every reply is a simulated receipt. Rejections are covered by `Console.SendBroadcast`.

=== FILE: broadcast.dfy ===
/**
 The broadcast dispatcher: the delivery channels, the sends the console issues,
 the expansion of a (host scope x channel scope) request into per-channel sends,
 and the aggregation of the delivery results into one report. Delivery itself
 (`broadcastToChannel`) is a collaborator whose replies are inputs.
 */
module Broadcast {

  import opened Registry
  import opened Text

  datatype Channel = HOST | USER | AGENT | MACHINE

  function ChannelName(c: Channel): string
  {
    match c
    case HOST => "HOST"
    case USER => "USER"
    case AGENT => "AGENT"
    case MACHINE => "MACHINE"
  }

  /** The channel buttons: `ALL` or one channel. */
  datatype ChannelScope = AllChannels | Only(channel: Channel)

  /** The order in which an `ALL` request issues its sends. */
  const FanOutOrder: seq<Channel> := [HOST, USER, AGENT, MACHINE]

  /** The `command` argument of `broadcastToChannel`. */
  datatype Command =
    | StartSession | StopSession | KillSession | ShowSession
    | AllHostsAllChannels | AllHostsSpecificChannel | SpecificHostAllChannels | SpecificHostSpecificChannel

  /** The identity fields the session commands broadcast. */
  datatype Identity = Identity(host: HostId, username: string, agentName: string, machineName: string)

  function IdentityOf(s: Session): Identity
  {
    Identity(s.host, s.username, s.agentName, s.machineName)
  }

  /** Who a custom broadcast is about: every host key, or one host's identity fields. */
  datatype Target =
    | TargetHosts(hosts: seq<HostId>)
    | TargetHost(targetHost: HostId, targetMachine: string, targetUser: string, targetAgent: string)

  const Sender: string := "SSH Operations Dashboard"

  const KillReason: string := "Manual termination"

  /** The `data` argument of `broadcastToChannel`, one shape per caller. */
  datatype Payload =
    | Started(who: Identity, startedAt: Stamp)
    | Stopped(who: Identity, stoppedAt: Stamp)
    | Killed(who: Identity, terminatedAt: Stamp, reason: string)
    | Details(sessionData: Session, requestedBy: string, detailsHost: HostId)
    | Custom(message: string, broadcastType: Command, sentOn: Channel, target: Target, sender: string, timestamp: Stamp)

  /** One elementary `broadcastToChannel(channel, command, data)` call. */
  datatype Send = Send(channel: Channel, command: Command, payload: Payload)

  /** What the delivery collaborator answers: a receipt, or a rejection. */
  datatype Reply = Delivered(subscribersNotified: nat, messageId: string) | Rejected

  /** A receipt of the kind the simulated delivery produces: between one and ten subscribers. */
  predicate InSimulatedRange(r: Reply)
  {
    r.Delivered? && 1 <= r.subscribersNotified <= 10
  }

  /**
   The simulated `broadcastToChannel` reply: `roll` stands for
   `Math.floor(Math.random() * 10)` and `clock` for `Date.now()`. It never rejects.
   */
  function SimulatedDelivery(roll: nat, clock: nat): (r: Reply)
    requires roll < 10
    ensures InSimulatedRange(r)
    ensures r.messageId == "msg_" + NatToString(clock)
  {
    Delivered(roll + 1, "msg_" + NatToString(clock))
  }

  /** The command tag of a custom broadcast names its (host scope, channel scope) quadrant. */
  function CommandTag(h: Scope, ch: ChannelScope): (t: Command)
    ensures t.AllHostsAllChannels? <==> h.AllHosts? && ch.AllChannels?
    ensures t.AllHostsSpecificChannel? <==> h.AllHosts? && ch.Only?
    ensures t.SpecificHostAllChannels? <==> h.Host? && ch.AllChannels?
    ensures t.SpecificHostSpecificChannel? <==> h.Host? && ch.Only?
  {
    match (h, ch)
    case (AllHosts, AllChannels) => AllHostsAllChannels
    case (AllHosts, Only(_)) => AllHostsSpecificChannel
    case (Host(_), AllChannels) => SpecificHostAllChannels
    case (Host(_), Only(_)) => SpecificHostSpecificChannel
  }

  /** Reads the quadrant back off a custom-broadcast tag: (all hosts?, all channels?). */
  function Quadrant(t: Command): (bool, bool)
    requires t.AllHostsAllChannels? || t.AllHostsSpecificChannel? || t.SpecificHostAllChannels? || t.SpecificHostSpecificChannel?
  {
    match t
    case AllHostsAllChannels => (true, true)
    case AllHostsSpecificChannel => (true, false)
    case SpecificHostAllChannels => (false, true)
    case SpecificHostSpecificChannel => (false, false)
  }

  /** The tag records both scopes: reading it back recovers which of them were `ALL`. */
  lemma CommandTagRoundTrip(h: Scope, ch: ChannelScope)
    ensures Quadrant(CommandTag(h, ch)) == (h.AllHosts?, ch.AllChannels?)
  {
  }

  /** The channels a request is sent on. */
  function Channels(ch: ChannelScope): (cs: seq<Channel>)
    ensures ch.AllChannels? ==> cs == FanOutOrder
    ensures ch.Only? ==> cs == [ch.channel]
  {
    match ch
    case AllChannels => FanOutOrder
    case Only(c) => [c]
  }

  /** The host part of a custom payload: all keys for `ALL_HOSTS`, else the fleet record's identity fields. */
  function TargetOf(fleet: Fleet, h: Scope): (t: Target)
    requires ValidScope(fleet, h)
    ensures h.AllHosts? ==> t == TargetHosts(HostIds(fleet))
    ensures h.Host? ==> t.TargetHost? && t.targetHost == h.id
    ensures h.Host? ==> exists s :: s in fleet && s.host == h.id &&
                          t == TargetHost(s.host, s.machineName, s.username, s.agentName)
    ensures h.Host? && UniqueHosts(fleet) ==>
              forall i :: 0 <= i < |fleet| && fleet[i].host == h.id ==>
                t == TargetHost(fleet[i].host, fleet[i].machineName, fleet[i].username, fleet[i].agentName)
  {
    match h
    case AllHosts => TargetHosts(HostIds(fleet))
    case Host(id) =>
      var s := Lookup(fleet, id);
      TargetHost(s.host, s.machineName, s.username, s.agentName)
  }

  /**
   The Send handler's expansion of a custom broadcast: one send per channel of the
   channel scope, in fan-out order; the host scope only shapes the tag and payload.
   */
  function Expand(fleet: Fleet, h: Scope, ch: ChannelScope, message: string, now: nat): (r: seq<Send>)
    requires ValidScope(fleet, h)
    ensures |r| == (if ch.AllChannels? then 4 else 1)
    ensures ch.AllChannels? ==> forall i :: 0 <= i < |r| ==> r[i].channel == FanOutOrder[i]
    ensures ch.Only? ==> r[0].channel == ch.channel
    ensures forall i :: 0 <= i < |r| ==>
              && r[i].command == CommandTag(h, ch)
              && r[i].payload == Custom(message, CommandTag(h, ch), r[i].channel, TargetOf(fleet, h), Sender, At(now))
  {
    var cs := Channels(ch);
    var tag := CommandTag(h, ch);
    seq(|cs|, i requires 0 <= i < |cs| => Send(cs[i], tag, Custom(message, tag, cs[i], TargetOf(fleet, h), Sender, At(now))))
  }

  /** An `ALL` request reaches every channel exactly once. */
  lemma FanOutCoversEachChannelOnce(fleet: Fleet, h: Scope, message: string, now: nat, c: Channel)
    requires ValidScope(fleet, h)
    ensures var r := Expand(fleet, h, AllChannels, message, now);
            exists i :: 0 <= i < |r| && r[i].channel == c && forall j :: 0 <= j < |r| && r[j].channel == c ==> j == i
  {
    var r := Expand(fleet, h, AllChannels, message, now);
    var i: nat := match c case HOST => 0 case USER => 1 case AGENT => 2 case MACHINE => 3;
    assert FanOutOrder[i] == c;
    forall j | 0 <= j < |r| && r[j].channel == c
      ensures j == i
    {
      assert FanOutOrder[j] == c;
    }
  }

  /** The host scope never changes how many sends are issued, nor on which channels. */
  lemma HostScopeKeepsChannels(fleet: Fleet, h1: Scope, h2: Scope, ch: ChannelScope, message: string, now: nat)
    requires ValidScope(fleet, h1) && ValidScope(fleet, h2)
    ensures var r1 := Expand(fleet, h1, ch, message, now);
            var r2 := Expand(fleet, h2, ch, message, now);
            |r1| == |r2| && forall i :: 0 <= i < |r1| ==> r1[i].channel == r2[i].channel
  {
  }

  /** The collaborator's reply to each send, in send order. */
  function Deliver(sends: seq<Send>, deliver: Send -> Reply): (rs: seq<Reply>)
    ensures |rs| == |sends|
    ensures forall i :: 0 <= i < |sends| ==> rs[i] == deliver(sends[i])
  {
    seq(|sends|, i requires 0 <= i < |sends| => deliver(sends[i]))
  }

  /** `Promise.all` resolved: no reply is a rejection. */
  predicate AllDelivered(rs: seq<Reply>)
  {
    forall i :: 0 <= i < |rs| ==> rs[i].Delivered?
  }

  /** `results.reduce((sum, r) => sum + r.subscribersNotified, 0)`. */
  function Total(rs: seq<Reply>): (t: nat)
    requires AllDelivered(rs)
    ensures |rs| == 0 ==> t == 0
    ensures forall i :: 0 <= i < |rs| ==> rs[i].subscribersNotified <= t
  {
    if |rs| == 0 then 0 else Total(rs[..|rs| - 1]) + rs[|rs| - 1].subscribersNotified
  }

  /** The total of a concatenation is the sum of the totals. */
  lemma {:induction false} TotalAppend(a: seq<Reply>, b: seq<Reply>)
    requires AllDelivered(a) && AllDelivered(b)
    ensures AllDelivered(a + b)
    ensures Total(a + b) == Total(a) + Total(b)
    decreases |b|
  {
    if |b| == 0 {
      assert a + b == a;
    } else {
      var b' := b[..|b| - 1];
      assert (a + b)[..|a + b| - 1] == a + b';
      TotalAppend(a, b');
    }
  }

  /** Taking the same element out of two equal multisets leaves equal multisets. */
  lemma MultisetCancel<T>(p: multiset<T>, q: multiset<T>, x: T)
    requires p + multiset{x} == q + multiset{x}
    ensures p == q
  {
    forall e
      ensures p[e] == q[e]
    {
      assert (p + multiset{x})[e] == (q + multiset{x})[e];
    }
  }

  /** Removing the entry at `j` takes that entry out of the multiset. */
  lemma MultisetRemoveAt<T>(s: seq<T>, j: nat)
    requires j < |s|
    ensures multiset(s) == multiset(s[..j] + s[j + 1..]) + multiset{s[j]}
  {
    assert s == s[..j] + [s[j]] + s[j + 1..];
  }

  /** Removing the receipt at `j` takes its subscribers out of the total. */
  lemma TotalRemoveAt(rs: seq<Reply>, j: nat)
    requires AllDelivered(rs) && j < |rs|
    ensures AllDelivered(rs[..j] + rs[j + 1..])
    ensures Total(rs) == Total(rs[..j] + rs[j + 1..]) + rs[j].subscribersNotified
  {
    var lo, x, hi := rs[..j], rs[j], rs[j + 1..];
    assert rs == lo + [x] + hi;
    assert AllDelivered(hi);
    TotalAppend(lo, hi);
    TotalAppend(lo, [x]);
    TotalAppend(lo + [x], hi);
    assert Total([x]) == x.subscribersNotified by {
      assert [x][..0] == [];
    }
  }

  /** Whatever order the results come back in, the total is the same: any reordering keeps it. */
  lemma {:induction false} TotalOrderFree(a: seq<Reply>, b: seq<Reply>)
    requires AllDelivered(a) && multiset(a) == multiset(b)
    ensures AllDelivered(b)
    ensures Total(a) == Total(b)
    decreases |a|
  {
    forall i | 0 <= i < |b|
      ensures b[i].Delivered?
    {
      assert b[i] in multiset(a);
    }
    if |a| > 0 {
      var n := |a| - 1;
      assert a[n] in multiset(b);
      var j :| 0 <= j < |b| && b[j] == a[n];
      MultisetRemoveAt(a, n);
      MultisetRemoveAt(b, j);
      MultisetCancel(multiset(a[..n] + a[n + 1..]), multiset(b[..j] + b[j + 1..]), a[n]);
      TotalOrderFree(a[..n] + a[n + 1..], b[..j] + b[j + 1..]);
      TotalRemoveAt(a, n);
      TotalRemoveAt(b, j);
    }
  }

  /** With every receipt between one and ten subscribers, n receipts total between n and 10n. */
  lemma {:induction false} TotalBounds(rs: seq<Reply>)
    requires forall i :: 0 <= i < |rs| ==> InSimulatedRange(rs[i])
    ensures AllDelivered(rs)
    ensures |rs| <= Total(rs) <= 10 * |rs|
  {
    if |rs| > 0 {
      TotalBounds(rs[..|rs| - 1]);
    }
  }

  /** The separator of the target description (an arrow). */
  const Arrow: string := " \U{2192} "

  predicate EndsWith(s: string, suffix: string)
  {
    |suffix| <= |s| && s[|s| - |suffix|..] == suffix
  }

  /** A concatenation ends with its right operand. */
  lemma EndsWithAppend(a: string, b: string)
    ensures EndsWith(a + b, b)
  {
    assert (a + b)[|a|..] == b;
  }

  /** Once `r` ends with `p`, it ends with a shorter `t` exactly when `p` does. */
  lemma SuffixAgree(r: string, p: string, t: string)
    requires EndsWith(r, p) && |t| <= |p|
    ensures EndsWith(r, t) <==> EndsWith(p, t)
  {
    assert r[|r| - |t|..] == p[|p| - |t|..];
  }

  /** The host half of the description. */
  function HostPart(fleet: Fleet, h: Scope): (r: string)
    requires ValidScope(fleet, h)
    ensures h.AllHosts? ==> r == "All " + NatToString(|fleet|) + " hosts"
    ensures h.Host? ==> r == h.id
  {
    match h
    case AllHosts => "All " + NatToString(|fleet|) + " hosts"
    case Host(id) => Lookup(fleet, id).host
  }

  /** The channel half of the description. */
  function ChannelPart(ch: ChannelScope): (r: string)
    ensures ch.AllChannels? ==> r == "All channels"
    ensures ch.Only? ==> r == ChannelName(ch.channel) + " channel"
  {
    match ch
    case AllChannels => "All channels"
    case Only(c) => ChannelName(c) + " channel"
  }

  /** A three-part concatenation starts with its first two parts and ends with its last two. */
  lemma Joined(a: string, b: string, c: string)
    ensures a + b <= a + b + c
    ensures EndsWith(a + b + c, b + c)
  {
    assert (a + b + c)[..|a + b|] == a + b;
    assert (a + b + c)[|a|..] == b + c;
  }

  /** Only the all-channels wording ends in "channels"; a single channel's wording ends in "channel". */
  lemma ChannelPartEnding(ch: ChannelScope)
    ensures |ChannelPart(ch)| >= 8
    ensures EndsWith(ChannelPart(ch), "channels") <==> ch.AllChannels?
  {
    var p := ChannelPart(ch);
    if ch.Only? {
      assert p[|p| - 1] == 'l';
    }
  }

  /** `targetDescription`: one of four templates, host part then channel part. */
  function TargetDescription(fleet: Fleet, h: Scope, ch: ChannelScope): (r: string)
    requires ValidScope(fleet, h)
    ensures h.AllHosts? && ch.AllChannels? ==> r == "All " + NatToString(|fleet|) + " hosts" + Arrow + "All channels"
    ensures h.AllHosts? && ch.Only? ==>
              r == "All " + NatToString(|fleet|) + " hosts" + Arrow + ChannelName(ch.channel) + " channel"
    ensures h.Host? && ch.AllChannels? ==> r == h.id + Arrow + "All channels"
    ensures h.Host? && ch.Only? ==> r == h.id + Arrow + ChannelName(ch.channel) + " channel"
    ensures EndsWith(r, Arrow + ChannelPart(ch))
  {
    var hostPart, channelPart := HostPart(fleet, h), ChannelPart(ch);
    Joined(hostPart, Arrow, channelPart);
    hostPart + Arrow + channelPart
  }

  /** The description starts with the host wording and the arrow. */
  lemma DescriptionStart(fleet: Fleet, h: Scope, ch: ChannelScope)
    requires ValidScope(fleet, h)
    ensures h.AllHosts? ==> "All " + NatToString(|fleet|) + " hosts" + Arrow <= TargetDescription(fleet, h, ch)
    ensures h.Host? ==> h.id + Arrow <= TargetDescription(fleet, h, ch)
  {
    var hostPart, channelPart := HostPart(fleet, h), ChannelPart(ch);
    assert TargetDescription(fleet, h, ch) == hostPart + Arrow + channelPart;
    Joined(hostPart, Arrow, channelPart);
  }

  /** The description ends with the arrow and the channel wording. */
  lemma DescriptionEnd(fleet: Fleet, h: Scope, ch: ChannelScope)
    requires ValidScope(fleet, h)
    ensures ch.AllChannels? ==> EndsWith(TargetDescription(fleet, h, ch), Arrow + "All channels")
    ensures ch.Only? ==> EndsWith(TargetDescription(fleet, h, ch), Arrow + ChannelName(ch.channel) + " channel")
  {
    var tail := Arrow + ChannelPart(ch);
    assert EndsWith(TargetDescription(fleet, h, ch), tail);
  }

  /** Whatever precedes it, a text ending in the arrow and a channel part ends in "channels" only for all channels. */
  lemma ChannelTailEnding(r: string, ch: ChannelScope)
    requires EndsWith(r, Arrow + ChannelPart(ch))
    ensures EndsWith(r, "channels") <==> ch.AllChannels?
  {
    var tail := Arrow + ChannelPart(ch);
    EndsWithAppend(Arrow, ChannelPart(ch));
    ChannelPartEnding(ch);
    SuffixAgree(r, tail, "channels");
    SuffixAgree(tail, ChannelPart(ch), "channels");
  }

  /** The description says "channels" exactly when the request went to every channel. */
  lemma DescriptionRevealsChannelScope(fleet: Fleet, h: Scope, ch: ChannelScope)
    requires ValidScope(fleet, h)
    ensures EndsWith(TargetDescription(fleet, h, ch), "channels") <==> ch.AllChannels?
  {
    ChannelTailEnding(TargetDescription(fleet, h, ch), ch);
  }

  /** The fixture's default request is described as in the console's own wording. */
  lemma FixtureDescription()
    ensures TargetDescription(HostServers, AllHosts, AllChannels) == "All 14 hosts" + Arrow + "All channels"
  {
    FixtureSize();
    assert NatToString(14) == "14";
  }
}

=== FILE: console.dfy ===
/**
 The operator console (`App`): its state and every handler that changes it.
 Each handler is a pure transition that takes the logical time at which the
 operator acted and the delivery collaborator, runs to completion (including
 the simulated latency of a broadcast or a refresh), and returns the new state
 together with the sends it issued. Only the working copy `session` is ever
 changed; the fleet is the fixed fixture and is passed in unchanged.
 */
module Console {

  import opened Registry
  import opened Selection
  import opened Broadcast
  import opened Notification
  import opened Text

  /** Milliseconds `broadcastToChannel` waits before answering. */
  const Latency: nat := 1500

  /** Milliseconds the refresh handler waits before reporting. */
  const RefreshDelay: nat := 1000

  /** The per-host session commands that share one shape. */
  datatype Action = Start | Stop | Kill

  /** The banner texts, one constructor per message template. */
  datatype Note =
    | SelectedServer(host: HostId)
    | SelectedAllHosts(count: nat)
    | SelectSpecificHost(action: Action)
    | Fetching
    | SessionChanged(action: Action, changedHost: HostId, user: string, subscribers: nat)
    | CommandFailed(failed: Action)
    | RefreshingAll
    | AllRefreshed
    | Refreshing
    | DataRefreshed(refreshedHost: HostId, updated: Stamp)
    | SessionDetails(details: Session, detailSubscribers: nat)
    | DetailsFailed
    | EnterMessage
    | MessageSent(message: string, target: string, total: nat)
    | BroadcastFailed

  /** The component's state hooks that the handlers read or write. */
  datatype State = State(
    focus: Scope,             // selectedHost
    session: Session,         // sessionData, the working copy
    selection: Checkboxes,    // selectedSessions
    draft: string,            // customBroadcastMessage
    messagingHost: Scope,     // messagingHost
    channel: ChannelScope,    // selectedChannel
    banner: Slot<Note>)       // message and messageType, with their armed clears

  /** A handler's outcome: the new state and the sends it issued, in order. */
  datatype Step = Step(after: State, sends: seq<Send>)

  /** Both dropdowns only ever hold `ALL_HOSTS` or a key of the fleet. */
  predicate Valid(c: State, fleet: Fleet)
  {
    ValidScope(fleet, c.focus) && ValidScope(fleet, c.messagingHost)
  }

  /** The state at first render: focus on all hosts, yet the working copy is the first server's record. */
  const Initial: State :=
    State(AllHosts, HostServers[0], map[], "", AllHosts, AllChannels, Empty())

  lemma InitialConsoleFacts()
    ensures Valid(Initial, HostServers)
    ensures Initial.focus.AllHosts? && Initial.session != Placeholder
    ensures Initial.session == HostServers[0] && Initial.session.host == "server-01.example.com"
    ensures SelectedCount(Initial.selection) == 0 && !AllChecked(Initial.selection)
    ensures View(Initial.banner, 0) == Cleared
  {
    assert Ticked(map[]) == {};
  }

  // ---------------------------------------------------------------- focus

  /**
   `handleHostChange(h)`. A host reloads its record from the fixture, dropping edits.
   `ALL_HOSTS` reloads through `getCurrentSessionData()`, which still sees the
   focus from before the change: the previous host's fixture record, or the
   placeholder if all hosts were already in focus.
   */
  function HostChange(c: State, fleet: Fleet, now: nat, h: Scope): (r: State)
    requires Valid(c, fleet) && ValidScope(fleet, h)
    ensures Valid(r, fleet)
    ensures r.focus == h
    ensures h.Host? ==> r.session in fleet && r.session.host == h.id
    ensures h.AllHosts? && c.focus.AllHosts? ==> r.session == Placeholder
    ensures h.AllHosts? && c.focus.Host? ==> r.session in fleet && r.session.host == c.focus.id
    ensures r.(focus := c.focus, session := c.session, banner := c.banner) == c
    ensures h.Host? ==> r.banner.display == Showing(SelectedServer(h.id), Info)
    ensures h.AllHosts? ==> r.banner.display == Showing(SelectedAllHosts(|fleet|), Info)
    ensures forall d :: d in r.banner.pending <==> d == now + DisplayDuration || (d in c.banner.pending && d > now)
  {
    match h
    case Host(id) =>
      c.(focus := h, session := Lookup(fleet, id), banner := Show(c.banner, now, SelectedServer(id), Info))
    case AllHosts =>
      c.(focus := h, session := CurrentSessionData(fleet, c.focus),
         banner := Show(c.banner, now, SelectedAllHosts(|fleet|), Info))
  }

  /** Refocusing forgets the working copy: the record after the change does not depend on it. */
  lemma HostChangeForgetsWorkingCopy(c1: State, c2: State, fleet: Fleet, now: nat, h: Scope)
    requires Valid(c1, fleet) && Valid(c2, fleet) && ValidScope(fleet, h)
    requires c1.focus == c2.focus
    ensures HostChange(c1, fleet, now, h).session == HostChange(c2, fleet, now, h).session
  {
  }

  /**
   The focus banner behaves as any `showMessage` banner: it stays up until
   `now + DisplayDuration` unless an earlier clear falls due first, and it is
   gone from then on.
   */
  lemma HostChangeBannerLasts(c: State, fleet: Fleet, now: nat, h: Scope, later: nat)
    requires Valid(c, fleet) && ValidScope(fleet, h)
    requires now <= later < now + DisplayDuration
    requires forall d :: d in c.banner.pending ==> d <= now || d > later
    ensures var r := HostChange(c, fleet, now, h);
            View(r.banner, later) == r.banner.display && View(r.banner, now + DisplayDuration) == Cleared
  {
    var r := HostChange(c, fleet, now, h);
    var text := r.banner.display.text;
    assert r.banner == Show(c.banner, now, text, Info);
    ShownBannerVisible(c.banner, now, text, Info, later);
    ShownBannerExpires(c.banner, now, text, Info, now + DisplayDuration);
  }

  // ---------------------------------------------------------------- editing

  /** The fields `handleFieldEdit` writes: the grid's editable cells and `lastActivity`. */
  datatype Edit =
    | SetUsername(username: string)
    | SetAgentName(agentName: string)
    | SetMachineName(machineName: string)
    | SetPort(port: Port)
    | SetStatus(status: Status)
    | SetLastActivity(lastActivity: Stamp)

  /** Two edits write the same field. */
  predicate SameField(e1: Edit, e2: Edit)
  {
    match e1
    case SetUsername(_) => e2.SetUsername?
    case SetAgentName(_) => e2.SetAgentName?
    case SetMachineName(_) => e2.SetMachineName?
    case SetPort(_) => e2.SetPort?
    case SetStatus(_) => e2.SetStatus?
    case SetLastActivity(_) => e2.SetLastActivity?
  }

  /** `{...prev, [field]: value}`: the edited field takes the value, every other field is kept. */
  function ApplyEdit(s: Session, e: Edit): (r: Session)
    ensures r.host == s.host && r.connectedSince == s.connectedSince
    ensures r.username == (if e.SetUsername? then e.username else s.username)
    ensures r.agentName == (if e.SetAgentName? then e.agentName else s.agentName)
    ensures r.machineName == (if e.SetMachineName? then e.machineName else s.machineName)
    ensures r.port == (if e.SetPort? then e.port else s.port)
    ensures r.status == (if e.SetStatus? then e.status else s.status)
    ensures r.lastActivity == (if e.SetLastActivity? then e.lastActivity else s.lastActivity)
  {
    match e
    case SetUsername(v) => s.(username := v)
    case SetAgentName(v) => s.(agentName := v)
    case SetMachineName(v) => s.(machineName := v)
    case SetPort(v) => s.(port := v)
    case SetStatus(v) => s.(status := v)
    case SetLastActivity(v) => s.(lastActivity := v)
  }

  /** A second edit of the same field overrides the first. */
  lemma EditLastWins(s: Session, e1: Edit, e2: Edit)
    requires SameField(e1, e2)
    ensures ApplyEdit(ApplyEdit(s, e1), e2) == ApplyEdit(s, e2)
  {
  }

  /** Edits of different fields can be applied in either order. */
  lemma EditsCommute(s: Session, e1: Edit, e2: Edit)
    requires !SameField(e1, e2)
    ensures ApplyEdit(ApplyEdit(s, e1), e2) == ApplyEdit(ApplyEdit(s, e2), e1)
  {
  }

  /** `handleFieldEdit(field, value)`: only the working copy changes. */
  function FieldEdit(c: State, e: Edit): (r: State)
    ensures r.(session := c.session) == c
    ensures r.session == ApplyEdit(c.session, e)
  {
    c.(session := ApplyEdit(c.session, e))
  }

  // ---------------------------------------------------------------- session commands

  /** The status each command leaves on the working copy. */
  function StatusAfter(a: Action): Status
  {
    match a
    case Start => Connected
    case Stop => Disconnected
    case Kill => Status.Terminated
  }

  /** The command tag each per-host command broadcasts with. */
  function Tag(a: Action): Command
  {
    match a
    case Start => StartSession
    case Stop => StopSession
    case Kill => KillSession
  }

  /** The banner type of each command's success report. */
  function ReportKind(a: Action): Kind
  {
    match a
    case Start => Success
    case Stop => Warning
    case Kill => Kind.Error
  }

  /**
   The update each command makes to the working copy at time `now`: the status,
   `lastActivity`, and for start also `connectedSince`; nothing else.
   */
  function Effect(a: Action, s: Session, now: nat): (r: Session)
    ensures a == Start ==> r.status == Connected && r.connectedSince == At(now)
    ensures a == Stop ==> r.status == Disconnected && r.connectedSince == s.connectedSince
    ensures a == Kill ==> r.status == Status.Terminated && r.connectedSince == s.connectedSince
    ensures r.lastActivity == At(now)
    ensures IdentityOf(r) == IdentityOf(s) && r.port == s.port
  {
    match a
    case Start => s.(status := Connected, connectedSince := At(now), lastActivity := At(now))
    case Stop => s.(status := Disconnected, lastActivity := At(now))
    case Kill => s.(status := Status.Terminated, lastActivity := At(now))
  }

  /** Repeating a command at the same instant changes nothing more: there is no transition guard. */
  lemma EffectIdempotent(a: Action, s: Session, now: nat)
    ensures Effect(a, Effect(a, s, now), now) == Effect(a, s, now)
  {
  }

  /** Only the latest command decides status and `lastActivity`. */
  lemma EffectLatestWins(a1: Action, a2: Action, s: Session, t1: nat, t2: nat)
    ensures Effect(a2, Effect(a1, s, t1), t2).status == StatusAfter(a2)
    ensures Effect(a2, Effect(a1, s, t1), t2).lastActivity == At(t2)
  {
  }

  /** The broadcast payload: the identity fields, the command's timestamp, and for kill the reason. */
  function Announcement(a: Action, who: Identity, now: nat): (p: Payload)
    ensures (p.Started? || p.Stopped? || p.Killed?) && p.who == who
    ensures a == Start <==> p.Started? && p.startedAt == At(now)
    ensures a == Stop <==> p.Stopped? && p.stoppedAt == At(now)
    ensures a == Kill <==> p.Killed? && p.terminatedAt == At(now) && p.reason == KillReason
  {
    match a
    case Start => Started(who, At(now))
    case Stop => Stopped(who, At(now))
    case Kill => Killed(who, At(now), KillReason)
  }

  /**
   `startSession`, `stopSession` and `killSession`. With all hosts in focus: a
   warning and nothing else. Otherwise: the working copy takes the command's
   effect, one `HOST` send carries the fixture record's identity fields, the
   call shows the loading banner, and the reply decides the final banner. The
   working copy is updated before the send, so a rejection does not undo it.
   */
  function SessionCommand(c: State, fleet: Fleet, now: nat, deliver: Send -> Reply, a: Action): (r: Step)
    requires Valid(c, fleet)
    ensures Valid(r.after, fleet)
    ensures r.after.(session := c.session, banner := c.banner) == c
    ensures c.focus.AllHosts? ==>
              && r.sends == []
              && r.after.session == c.session
              && r.after.banner.display == Showing(SelectSpecificHost(a), Warning)
    ensures c.focus.Host? ==>
              && |r.sends| == 1
              && r.sends[0].channel == HOST
              && r.sends[0].command == Tag(a)
              && r.sends[0].payload == Announcement(a, IdentityOf(Lookup(fleet, c.focus.id)), now)
              && r.after.session == Effect(a, c.session, now)
    ensures c.focus.Host? && deliver(r.sends[0]).Delivered? ==>
              r.after.banner.display ==
                Showing(SessionChanged(a, c.focus.id, Lookup(fleet, c.focus.id).username,
                                       deliver(r.sends[0]).subscribersNotified), ReportKind(a))
    ensures c.focus.Host? && deliver(r.sends[0]).Rejected? ==>
              r.after.banner.display == Showing(CommandFailed(a), Kind.Error)
    ensures c.focus.AllHosts? ==>
              forall d :: d in r.after.banner.pending <==> d == now + DisplayDuration || (d in c.banner.pending && d > now)
    ensures c.focus.Host? ==>
              forall d :: d in r.after.banner.pending <==>
                || d == now + DisplayDuration
                || d == now + Latency + DisplayDuration
                || (d in c.banner.pending && d > now + Latency)
  {
    match c.focus
    case AllHosts =>
      Step(c.(banner := Show(c.banner, now, SelectSpecificHost(a), Warning)), [])
    case Host(id) =>
      var who := IdentityOf(Lookup(fleet, id));
      var send := Send(HOST, Tag(a), Announcement(a, who, now));
      var loading := Show(c.banner, now, Fetching, Loading);
      var report := match deliver(send)
        case Delivered(n, _) => Show(loading, now + Latency, SessionChanged(a, who.host, who.username, n), ReportKind(a))
        case Rejected => Show(loading, now + Latency, CommandFailed(a), Kind.Error);
      Step(c.(session := Effect(a, c.session, now), banner := report), [send])
  }

  /** The broadcast identity comes from the fixture, so edits to the working copy never reach it. */
  lemma CommandPayloadIgnoresEdits(c: State, fleet: Fleet, now: nat, deliver: Send -> Reply, a: Action, e: Edit)
    requires Valid(c, fleet)
    ensures SessionCommand(FieldEdit(c, e), fleet, now, deliver, a).sends == SessionCommand(c, fleet, now, deliver, a).sends
  {
  }

  /**
   The loading banner's clear is never cancelled: the command's report, shown at
   `now + Latency`, is wiped at `now + DisplayDuration`, before its own deadline.
   */
  lemma CommandReportCutShort(c: State, fleet: Fleet, now: nat, deliver: Send -> Reply, a: Action)
    requires Valid(c, fleet) && c.focus.Host?
    ensures var r := SessionCommand(c, fleet, now, deliver, a);
            && View(r.after.banner, now + Latency) == r.after.banner.display
            && View(r.after.banner, now + DisplayDuration) == Cleared
  {
    var r := SessionCommand(c, fleet, now, deliver, a);
    var loading := Show(c.banner, now, Fetching, Loading);
    assert now + DisplayDuration in loading.pending;
    var i :| 0 <= i < |loading.pending| && loading.pending[i] == now + DisplayDuration;
    var report := r.after.banner;
    assert report == Show(loading, now + Latency, report.display.text, report.display.kind);
    StaleClearWipesNewerBanner(loading, now + Latency, report.display.text, report.display.kind, now + DisplayDuration, i);
    ShownBannerVisible(loading, now + Latency, report.display.text, report.display.kind, now + Latency);
  }

  /**
   `refreshSession`. The "refreshing" banner is set directly (no clear armed);
   after `RefreshDelay` a focused host's `lastActivity` is re-stamped and the
   success banner is shown. With all hosts in focus no record is touched. No sends.
   */
  function Refresh(c: State, fleet: Fleet, now: nat): (r: Step)
    requires Valid(c, fleet)
    ensures r.sends == []
    ensures r.after.(session := c.session, banner := c.banner) == c
    ensures c.focus.AllHosts? ==>
              r.after.session == c.session && r.after.banner.display == Showing(AllRefreshed, Success)
    ensures c.focus.Host? ==>
              && r.after.session.lastActivity == At(now + RefreshDelay)
              && r.after.session.(lastActivity := c.session.lastActivity) == c.session
              && r.after.banner.display == Showing(DataRefreshed(c.focus.id, At(now + RefreshDelay)), Success)
    ensures forall d :: d in r.after.banner.pending <==>
              d == now + RefreshDelay + DisplayDuration || (d in c.banner.pending && d > now + RefreshDelay)
  {
    var done := now + RefreshDelay;
    match c.focus
    case AllHosts =>
      Step(c.(banner := Show(Put(c.banner, now, RefreshingAll, Info), done, AllRefreshed, Success)), [])
    case Host(id) =>
      var host := Lookup(fleet, id).host;
      var waiting := Put(c.banner, now, Refreshing, Info);
      Step(c.(session := c.session.(lastActivity := At(done)),
              banner := Show(waiting, done, DataRefreshed(host, At(done)), Success)), [])
  }

  /**
   The refresh report is set after a banner that armed no clear, so nothing
   armed by the refresh itself cuts it short: it stays up for the full
   `DisplayDuration` unless a clear armed before the refresh falls due.
   */
  lemma RefreshReportLasts(c: State, fleet: Fleet, now: nat, later: nat)
    requires Valid(c, fleet)
    requires now + RefreshDelay <= later < now + RefreshDelay + DisplayDuration
    requires forall d :: d in c.banner.pending ==> d <= now + RefreshDelay || d > later
    ensures var r := Refresh(c, fleet, now);
            View(r.after.banner, later) == r.after.banner.display &&
            View(r.after.banner, now + RefreshDelay + DisplayDuration) == Cleared
  {
    var b := Refresh(c, fleet, now).after.banner;
    forall k | 0 <= k < |b.pending|
      ensures b.pending[k] > later
    {
      assert b.pending[k] in b.pending;
    }
    assert now + RefreshDelay + DisplayDuration in b.pending;
    var k :| 0 <= k < |b.pending| && b.pending[k] == now + RefreshDelay + DisplayDuration;
  }

  /**
   `showSessionDetails`: no scope guard; one `HOST` send carrying the working copy
   as it stands, and no change to it.
   */
  function ShowDetails(c: State, now: nat, deliver: Send -> Reply): (r: Step)
    ensures r.after.(banner := c.banner) == c
    ensures |r.sends| == 1 && r.sends[0].channel == HOST && r.sends[0].command == ShowSession
    ensures r.sends[0].payload == Details(c.session, c.session.username, c.session.host)
    ensures deliver(r.sends[0]).Delivered? ==>
              r.after.banner.display == Showing(SessionDetails(c.session, deliver(r.sends[0]).subscribersNotified), Info)
    ensures deliver(r.sends[0]).Rejected? ==> r.after.banner.display == Showing(DetailsFailed, Kind.Error)
    ensures forall d :: d in r.after.banner.pending <==>
              || d == now + DisplayDuration
              || d == now + Latency + DisplayDuration
              || (d in c.banner.pending && d > now + Latency)
  {
    var send := Send(HOST, ShowSession, Details(c.session, c.session.username, c.session.host));
    var loading := Show(c.banner, now, Fetching, Loading);
    var report := match deliver(send)
      case Delivered(n, _) => Show(loading, now + Latency, SessionDetails(c.session, n), Info)
      case Rejected => Show(loading, now + Latency, DetailsFailed, Kind.Error);
    Step(c.(banner := report), [send])
  }

  /** The details report, like a command's, is wiped by the loading banner's clear at `now + DisplayDuration`. */
  lemma DetailsReportCutShort(c: State, now: nat, deliver: Send -> Reply)
    ensures var r := ShowDetails(c, now, deliver);
            View(r.after.banner, now + Latency) == r.after.banner.display &&
            View(r.after.banner, now + DisplayDuration) == Cleared
  {
    ReportWindow(ShowDetails(c, now, deliver).after.banner, c.banner, now);
  }

  // ---------------------------------------------------------------- bulk selection

  /** `handleSessionSelect(h, on)`: only the selection changes. */
  function SelectSession(c: State, h: HostId, on: bool): (r: State)
    ensures r.(selection := c.selection) == c
    ensures r.selection == Toggle(c.selection, h, on)
  {
    c.(selection := Toggle(c.selection, h, on))
  }

  /** `handleSelectAll(on)`: the selection becomes every fleet key with state `on`. */
  function SelectAllSessions(c: State, fleet: Fleet, on: bool): (r: State)
    ensures r.(selection := c.selection) == c
    ensures forall k :: k in r.selection <==> Known(fleet, k)
    ensures forall k :: k in r.selection ==> r.selection[k] == on
  {
    var ids := HostIds(fleet);
    assert forall k :: k in ids <==> Known(fleet, k) by {
      forall k ensures k in ids <==> Known(fleet, k) {
        if k in ids {
          var i :| 0 <= i < |ids| && ids[i] == k;
        }
      }
    }
    c.(selection := SelectAll(ids, on))
  }

  /** Select-all round trip on the console: all fleet hosts ticked, then none. */
  lemma SelectAllSessionsRoundTrip(c: State, fleet: Fleet)
    requires UniqueHosts(fleet)
    ensures var all := SelectAllSessions(c, fleet, true);
            var none := SelectAllSessions(all, fleet, false);
            && SelectedCount(all.selection) == |fleet|
            && (AllChecked(all.selection) <==> |fleet| > 0)
            && SelectedCount(none.selection) == 0
            && !AllChecked(none.selection)
  {
    SelectAllCount(fleet, true);
    SelectAllCount(fleet, false);
    AllCheckedAfterSelectAll(HostIds(fleet), true);
    AllCheckedAfterSelectAll(HostIds(fleet), false);
  }

  /** On the fourteen-host fixture the header checkbox ticks all fourteen rows and unticks them again. */
  lemma FixtureSelectAll(c: State)
    ensures var all := SelectAllSessions(c, HostServers, true);
            && SelectedCount(all.selection) == 14
            && AllChecked(all.selection)
            && SelectedCount(SelectAllSessions(all, HostServers, false).selection) == 0
  {
    FixtureUnique();
    FixtureSize();
    SelectAllSessionsRoundTrip(c, HostServers);
  }

  /** Focus and bulk selection are orthogonal: changing one commutes with changing the other. */
  lemma FocusCommutesWithSelection(c: State, fleet: Fleet, now: nat, h: Scope, k: HostId, on: bool)
    requires Valid(c, fleet) && ValidScope(fleet, h)
    ensures HostChange(SelectSession(c, k, on), fleet, now, h) == SelectSession(HostChange(c, fleet, now, h), k, on)
    ensures HostChange(SelectAllSessions(c, fleet, on), fleet, now, h) ==
            SelectAllSessions(HostChange(c, fleet, now, h), fleet, on)
  {
  }

  // ---------------------------------------------------------------- custom broadcast

  /** The "Target Host" dropdown (`setMessagingHost`): only the broadcast target changes. */
  function ChooseMessagingHost(c: State, fleet: Fleet, h: Scope): (r: State)
    requires Valid(c, fleet) && ValidScope(fleet, h)
    ensures Valid(r, fleet)
    ensures r.messagingHost == h
    ensures r.(messagingHost := c.messagingHost) == c
  {
    c.(messagingHost := h)
  }

  /** A channel button (`setSelectedChannel`): only the broadcast channel changes. */
  function ChooseChannel(c: State, ch: ChannelScope): (r: State)
    ensures r.channel == ch
    ensures r.(channel := c.channel) == c
  {
    c.(channel := ch)
  }

  /** Typing in the message box (`setCustomBroadcastMessage`): only the draft changes. */
  function TypeDraft(c: State, text: string): (r: State)
    ensures r.draft == text
    ensures r.(draft := c.draft) == c
  {
    c.(draft := text)
  }

  /** The broadcast target, channel and draft are independent: setting one keeps the others. */
  lemma BroadcastControlsCommute(c: State, fleet: Fleet, h: Scope, ch: ChannelScope, text: string)
    requires Valid(c, fleet) && ValidScope(fleet, h)
    ensures ChooseChannel(ChooseMessagingHost(c, fleet, h), ch) == ChooseMessagingHost(ChooseChannel(c, ch), fleet, h)
    ensures TypeDraft(ChooseChannel(c, ch), text) == ChooseChannel(TypeDraft(c, text), ch)
    ensures TypeDraft(ChooseMessagingHost(c, fleet, h), text) == ChooseMessagingHost(TypeDraft(c, text), fleet, h)
    ensures Valid(TypeDraft(c, text), fleet) && Valid(ChooseChannel(c, ch), fleet)
  {
  }

  /** `broadcastToChannel` shows the loading banner on every call: `n` calls at the same instant. */
  function Announce(s: Slot<Note>, now: nat, n: nat): (r: Slot<Note>)
    ensures n == 0 ==> r == s
    ensures n > 0 ==> r.display == Showing(Fetching, Loading)
    ensures forall d :: d in r.pending <==> (n > 0 && d == now + DisplayDuration) || (d in s.pending && (n == 0 || d > now))
  {
    if n == 0 then s else Show(Announce(s, now, n - 1), now, Fetching, Loading)
  }

  /**
   `n` loading banners at `now` followed by a report at `now + Latency`: the
   clears armed are the loading banners' one deadline, the report's own, and the
   earlier ones not yet due.
   */
  lemma LoadingThenReport(s: Slot<Note>, now: nat, n: nat, text: Note, kind: Kind)
    requires n > 0
    ensures var r := Show(Announce(s, now, n), now + Latency, text, kind);
            forall d :: d in r.pending <==>
              || d == now + DisplayDuration
              || d == now + Latency + DisplayDuration
              || (d in s.pending && d > now + Latency)
  {
  }

  /**
   The Send button. A draft that trims to nothing gets a warning and no sends.
   Otherwise the request is expanded into its sends, all issued at once; if every
   reply is a receipt the report carries the target description and the
   subscriber total and the draft is cleared, else one error banner and the
   draft is kept.
   */
  function SendBroadcast(c: State, fleet: Fleet, now: nat, deliver: Send -> Reply): (r: Step)
    requires Valid(c, fleet)
    ensures Valid(r.after, fleet)
    ensures r.after.(draft := c.draft, banner := c.banner) == c
    ensures IsBlank(c.draft) ==>
              && r.sends == []
              && r.after.draft == c.draft
              && r.after.banner.display == Showing(EnterMessage, Warning)
    ensures !IsBlank(c.draft) ==>
              && r.sends == Expand(fleet, c.messagingHost, c.channel, c.draft, now)
              && (r.after.draft == "" <==> AllDelivered(Deliver(r.sends, deliver)))
              && (!AllDelivered(Deliver(r.sends, deliver)) ==>
                    r.after.draft == c.draft && r.after.banner.display == Showing(BroadcastFailed, Kind.Error))
    ensures !IsBlank(c.draft) && AllDelivered(Deliver(r.sends, deliver)) ==>
              r.after.banner.display ==
                Showing(MessageSent(c.draft, TargetDescription(fleet, c.messagingHost, c.channel),
                                    Total(Deliver(r.sends, deliver))), Success)
    ensures IsBlank(c.draft) ==>
              forall d :: d in r.after.banner.pending <==> d == now + DisplayDuration || (d in c.banner.pending && d > now)
    ensures !IsBlank(c.draft) ==>
              forall d :: d in r.after.banner.pending <==>
                || d == now + DisplayDuration
                || d == now + Latency + DisplayDuration
                || (d in c.banner.pending && d > now + Latency)
  {
    TrimEmptyIffBlank(c.draft);
    if Trim(c.draft) == "" then
      Step(c.(banner := Show(c.banner, now, EnterMessage, Warning)), [])
    else
      var sends := Expand(fleet, c.messagingHost, c.channel, c.draft, now);
      var replies := Deliver(sends, deliver);
      var loading := Announce(c.banner, now, |sends|);
      if AllDelivered(replies) then
        var note := MessageSent(c.draft, TargetDescription(fleet, c.messagingHost, c.channel), Total(replies));
        LoadingThenReport(c.banner, now, |sends|, note, Success);
        Step(c.(banner := Show(loading, now + Latency, note, Success), draft := ""), sends)
      else
        LoadingThenReport(c.banner, now, |sends|, BroadcastFailed, Kind.Error);
        Step(c.(banner := Show(loading, now + Latency, BroadcastFailed, Kind.Error)), sends)
  }

  /**
   A slot whose clears are the loading deadline, the report's deadline and older
   ones not yet due at `now + Latency` shows its banner at `now + Latency` and
   nothing at `now + DisplayDuration`.
   */
  lemma ReportWindow(b: Slot<Note>, before: Slot<Note>, now: nat)
    requires forall d :: d in b.pending <==>
               || d == now + DisplayDuration
               || d == now + Latency + DisplayDuration
               || (d in before.pending && d > now + Latency)
    ensures View(b, now + Latency) == b.display
    ensures View(b, now + DisplayDuration) == Cleared
  {
    forall k | 0 <= k < |b.pending|
      ensures b.pending[k] > now + Latency
    {
      assert b.pending[k] in b.pending;
    }
    assert now + DisplayDuration in b.pending;
    var k :| 0 <= k < |b.pending| && b.pending[k] == now + DisplayDuration;
  }

  /**
   Every broadcast first shows the loading banner, whose clear is never
   cancelled: the report shown at `now + Latency` is wiped at
   `now + DisplayDuration`, before its own deadline.
   */
  lemma BroadcastReportCutShort(c: State, fleet: Fleet, now: nat, deliver: Send -> Reply)
    requires Valid(c, fleet) && !IsBlank(c.draft)
    ensures var r := SendBroadcast(c, fleet, now, deliver);
            View(r.after.banner, now + Latency) == r.after.banner.display &&
            View(r.after.banner, now + DisplayDuration) == Cleared
  {
    ReportWindow(SendBroadcast(c, fleet, now, deliver).after.banner, c.banner, now);
  }

  /**
   A whitespace-only draft (the empty draft included) is refused before any
   delivery attempt: the only change is the warning banner, armed to clear.
   */
  lemma BlankDraftSendsNothing(c: State, fleet: Fleet, now: nat, deliver: Send -> Reply)
    requires Valid(c, fleet) && IsBlank(c.draft)
    ensures SendBroadcast(c, fleet, now, deliver) == Step(c.(banner := Show(c.banner, now, EnterMessage, Warning)), [])
  {
    TrimEmptyIffBlank(c.draft);
  }

  /**
   The counts of a custom broadcast: four sends for `ALL` channels and one for a
   single channel, whatever the host scope; with simulated receipts the reported
   total lies between the number of sends and ten times it.
   */
  lemma {:induction false} BroadcastCounts(c: State, fleet: Fleet, now: nat, deliver: Send -> Reply)
    requires Valid(c, fleet) && !IsBlank(c.draft)
    requires forall s :: InSimulatedRange(deliver(s))
    ensures var r := SendBroadcast(c, fleet, now, deliver);
            && |r.sends| == (if c.channel.AllChannels? then 4 else 1)
            && r.after.draft == ""
            && r.after.banner.display.Showing?
            && r.after.banner.display.text.MessageSent?
            && |r.sends| <= r.after.banner.display.text.total <= 10 * |r.sends|
  {
    var r := SendBroadcast(c, fleet, now, deliver);
    var replies := Deliver(r.sends, deliver);
    TotalBounds(replies);
  }
}

=== FILE: notification.dfy ===
/**
 The console's single notification slot. `showMessage` replaces the banner and
 arms an auto-clear `DisplayDuration` milliseconds later; the clear is a plain
 timer that nobody cancels, so a clear armed by an earlier call also empties any
 banner shown after it. Time is a logical millisecond clock, and timers are kept
 as a list of pending deadlines that fire lazily whenever the slot is next
 touched or looked at.
 */
module Notification {

  /** Milliseconds between a `showMessage` call and the clear it arms. */
  const DisplayDuration: nat := 8000

  /** The `type` argument of `showMessage`. */
  datatype Kind = Info | Success | Warning | Error | Loading

  /** What the banner area shows: nothing (text and type both `''`), or one banner. */
  datatype Display<T> = Cleared | Showing(text: T, kind: Kind)

  /** The displayed banner plus the deadlines of the clears armed and not yet fired. */
  datatype Slot<T> = Slot(display: Display<T>, pending: seq<nat>)

  function Empty<T>(): Slot<T>
  {
    Slot(Cleared, [])
  }

  /** Some armed clear is due at `now`. */
  predicate Due(pending: seq<nat>, now: nat)
  {
    exists i :: 0 <= i < |pending| && pending[i] <= now
  }

  /** The clears still armed after every clear due at `now` has fired. */
  function Remaining(pending: seq<nat>, now: nat): (r: seq<nat>)
    ensures forall d :: d in r <==> d in pending && d > now
    ensures !Due(r, now)
  {
    if |pending| == 0 then []
    else if pending[0] <= now then Remaining(pending[1..], now)
    else [pending[0]] + Remaining(pending[1..], now)
  }

  /** Lets the clock reach `now`: every due clear fires, and any one of them empties the slot. */
  function Expire<T>(s: Slot<T>, now: nat): (r: Slot<T>)
    ensures Due(s.pending, now) ==> r.display == Cleared
    ensures !Due(s.pending, now) ==> r.display == s.display
    ensures forall d :: d in r.pending <==> d in s.pending && d > now
  {
    Slot(if Due(s.pending, now) then Cleared else s.display, Remaining(s.pending, now))
  }

  /** `showMessage(text, kind)` at time `now`: the banner is replaced and one more clear is armed. */
  function Show<T>(s: Slot<T>, now: nat, text: T, kind: Kind): (r: Slot<T>)
    ensures r.display == Showing(text, kind)
    ensures forall d :: d in r.pending <==> d == now + DisplayDuration || (d in s.pending && d > now)
  {
    Slot(Showing(text, kind), Expire(s, now).pending + [now + DisplayDuration])
  }

  /** `setMessage` and `setMessageType` called directly: the banner is replaced and nothing is armed. */
  function Put<T>(s: Slot<T>, now: nat, text: T, kind: Kind): (r: Slot<T>)
    ensures r.display == Showing(text, kind)
    ensures forall d :: d in r.pending <==> d in s.pending && d > now
  {
    Slot(Showing(text, kind), Expire(s, now).pending)
  }

  /** What the operator sees at time `now`. */
  function View<T>(s: Slot<T>, now: nat): (r: Display<T>)
    ensures Due(s.pending, now) ==> r == Cleared
    ensures !Due(s.pending, now) ==> r == s.display
  {
    Expire(s, now).display
  }

  /** A banner shown at `t` is gone at every instant from `t + DisplayDuration` on. */
  lemma ShownBannerExpires<T>(s: Slot<T>, t: nat, text: T, kind: Kind, later: nat)
    requires later >= t + DisplayDuration
    ensures View(Show(s, t, text, kind), later) == Cleared
  {
    var r := Show(s, t, text, kind);
    assert t + DisplayDuration in r.pending;
    var i :| 0 <= i < |r.pending| && r.pending[i] == t + DisplayDuration;
    assert Due(r.pending, later);
  }

  /** A banner shown at `t` stays up until the first armed clear after `t`. */
  lemma ShownBannerVisible<T>(s: Slot<T>, t: nat, text: T, kind: Kind, later: nat)
    requires t <= later < t + DisplayDuration
    requires forall d :: d in s.pending ==> d <= t || d > later
    ensures View(Show(s, t, text, kind), later) == Showing(text, kind)
  {
    var r := Show(s, t, text, kind);
    forall k | 0 <= k < |r.pending|
      ensures r.pending[k] > later
    {
      assert r.pending[k] in r.pending;
    }
  }

  /**
   The clear is not cancellable: a clear armed before `t` and due in `(t, later]`
   empties the banner shown at `t`, even before that banner's own deadline.
   */
  lemma StaleClearWipesNewerBanner<T>(s: Slot<T>, t: nat, text: T, kind: Kind, later: nat, i: nat)
    requires i < |s.pending| && t < s.pending[i] <= later
    ensures View(Show(s, t, text, kind), later) == Cleared
  {
    var r := Show(s, t, text, kind);
    assert s.pending[i] in s.pending;
    assert s.pending[i] in r.pending;
    var j :| 0 <= j < |r.pending| && r.pending[j] == s.pending[i];
  }

  /** One `showMessage` call of a history. */
  datatype Call<T> = Call(at: nat, text: T, kind: Kind)

  /** The calls were made in time order. */
  predicate Chronological<T>(calls: seq<Call<T>>)
  {
    forall i, j :: 0 <= i < j < |calls| ==> calls[i].at <= calls[j].at
  }

  /** The slot after a history of `showMessage` calls, starting from `s`. */
  function Run<T>(s: Slot<T>, calls: seq<Call<T>>): Slot<T>
  {
    if |calls| == 0 then s
    else
      var last := calls[|calls| - 1];
      Show(Run(s, calls[..|calls| - 1]), last.at, last.text, last.kind)
  }

  /**
   Reference reading of the same history, with no timers in it: the slot shows
   the latest call unless some call's deadline lies after the latest call and
   no later than `now`, in which case it is empty.
   */
  function Visible<T>(calls: seq<Call<T>>, now: nat): Display<T>
  {
    if |calls| == 0 then Cleared
    else
      var last := calls[|calls| - 1];
      if exists i :: 0 <= i < |calls| && last.at < calls[i].at + DisplayDuration <= now then Cleared
      else Showing(last.text, last.kind)
  }

  /** The clears still armed after a history are exactly the deadlines that lie after its last call. */
  lemma {:induction false} RunPending<T>(calls: seq<Call<T>>)
    requires |calls| > 0 && Chronological(calls)
    ensures forall d :: d in Run(Empty(), calls).pending <==>
              exists i :: 0 <= i < |calls| && d == calls[i].at + DisplayDuration && d > calls[|calls| - 1].at
  {
    var n := |calls|;
    var last := calls[n - 1];
    var prefix := calls[..n - 1];
    var r := Run(Empty(), calls);
    assert r == Show(Run(Empty(), prefix), last.at, last.text, last.kind);
    if n == 1 {
      forall d
        ensures d in r.pending <==> exists i :: 0 <= i < n && d == calls[i].at + DisplayDuration && d > last.at
      {
        if d in r.pending {
          assert d == calls[0].at + DisplayDuration;
        }
      }
    } else {
      RunPending(prefix);
      var p := Run(Empty(), prefix);
      forall d
        ensures d in r.pending <==> exists i :: 0 <= i < n && d == calls[i].at + DisplayDuration && d > last.at
      {
        if d in r.pending {
          if d != last.at + DisplayDuration {
            assert d in p.pending && d > last.at;
            var i :| 0 <= i < n - 1 && d == prefix[i].at + DisplayDuration && d > prefix[n - 2].at;
            assert d == calls[i].at + DisplayDuration;
          }
        }
        if exists i :: 0 <= i < n && d == calls[i].at + DisplayDuration && d > last.at {
          var i :| 0 <= i < n && d == calls[i].at + DisplayDuration && d > last.at;
          if i < n - 1 {
            assert calls[n - 2].at <= last.at;
            assert d == prefix[i].at + DisplayDuration && d > prefix[n - 2].at;
            assert d in p.pending;
          }
        }
      }
    }
  }

  /** The timer-based slot and the timer-free reading agree on every chronological history. */
  lemma {:induction false} RunMatchesVisible<T>(calls: seq<Call<T>>, now: nat)
    requires Chronological(calls)
    requires |calls| > 0 ==> calls[|calls| - 1].at <= now
    ensures View(Run(Empty(), calls), now) == Visible(calls, now)
  {
    if |calls| > 0 {
      var last := calls[|calls| - 1];
      var r := Run(Empty(), calls);
      RunPending(calls);
      if Due(r.pending, now) {
        var k :| 0 <= k < |r.pending| && r.pending[k] <= now;
        assert r.pending[k] in r.pending;
        var i :| 0 <= i < |calls| && r.pending[k] == calls[i].at + DisplayDuration && r.pending[k] > last.at;
        assert last.at < calls[i].at + DisplayDuration <= now;
      } else {
        forall i | 0 <= i < |calls| && last.at < calls[i].at + DisplayDuration
          ensures calls[i].at + DisplayDuration > now
        {
          var d := calls[i].at + DisplayDuration;
          assert d in r.pending;
          var k :| 0 <= k < |r.pending| && r.pending[k] == d;
        }
      }
    }
  }

  /** Only the latest call can be on screen, and it is off screen from its own deadline on. */
  lemma LatestCallOnly<T>(calls: seq<Call<T>>, now: nat)
    requires |calls| > 0
    ensures var last := calls[|calls| - 1];
            Visible(calls, now) == Cleared || Visible(calls, now) == Showing(last.text, last.kind)
    ensures var last := calls[|calls| - 1];
            now >= last.at + DisplayDuration ==> Visible(calls, now) == Cleared
  {
    var last := calls[|calls| - 1];
    if now >= last.at + DisplayDuration {
      assert last.at < calls[|calls| - 1].at + DisplayDuration <= now;
    }
  }

  /**
   The stale clear in numbers: a banner at 0 and a newer one at 1500 are both
   gone at 8000, although the newer one's own deadline is 9500.
   */
  lemma StaleClearExample<T>(a: T, b: T)
    ensures var calls := [Call(0, a, Loading), Call(1500, b, Success)];
            View(Run(Empty(), calls), 7999) == Showing(b, Success) &&
            View(Run(Empty(), calls), 8000) == Cleared
  {
    var calls := [Call(0, a, Loading), Call(1500, b, Success)];
    RunMatchesVisible(calls, 7999);
    RunMatchesVisible(calls, 8000);
    assert 1500 < calls[0].at + DisplayDuration <= 8000;
  }
}

=== FILE: registry.dfy ===
/**
 The host registry: the session record kept per host, the fixed fleet the console
 is built around (`hostServers`), the focus scope (`ALL_HOSTS` or one host), and
 the read-only views derived from the fleet. The fleet is rebuilt unchanged on
 every render, so nothing here ever updates it.
 */
module Registry {

  type HostId = string

  /** Every value the `status` field takes, including the placeholder's `Mixed`. */
  datatype Status = Connected | Disconnected | Connecting | Refreshed | Terminated | Error | Mixed

  /** The `port` field: a number, the `NaN` that `parseInt` yields for a non-numeric entry, or the placeholder's `Various`. */
  datatype Port = Number(value: int) | NotANumber | Various

  /** An opaque timestamp: a fixture literal, the logical instant at which the clock was read, or the placeholder's `Various`. */
  datatype Stamp = Literal(text: string) | At(instant: nat) | VariousTimes

  datatype Session = Session(
    host: HostId,
    username: string,
    agentName: string,
    machineName: string,
    port: Port,
    status: Status,
    connectedSince: Stamp,
    lastActivity: Stamp)

  /** The fleet in `Object.keys` order; each record's `host` is its key. */
  type Fleet = seq<Session>

  predicate UniqueHosts(fleet: Fleet)
  {
    forall i, j :: 0 <= i < j < |fleet| ==> fleet[i].host != fleet[j].host
  }

  /** `Object.keys(hostServers)`. */
  function HostIds(fleet: Fleet): (ids: seq<HostId>)
    ensures |ids| == |fleet|
    ensures forall i :: 0 <= i < |fleet| ==> ids[i] == fleet[i].host
  {
    seq(|fleet|, i requires 0 <= i < |fleet| => fleet[i].host)
  }

  predicate Known(fleet: Fleet, h: HostId)
  {
    exists i :: 0 <= i < |fleet| && fleet[i].host == h
  }

  /** `hostServers[h]`. */
  function Lookup(fleet: Fleet, h: HostId): (r: Session)
    requires Known(fleet, h)
    ensures r in fleet && r.host == h
    ensures UniqueHosts(fleet) ==> forall i :: 0 <= i < |fleet| && fleet[i].host == h ==> r == fleet[i]
  {
    if fleet[0].host == h then fleet[0]
    else
      assert Known(fleet[1..], h) by {
        var i :| 0 <= i < |fleet| && fleet[i].host == h;
        assert fleet[1..][i - 1] == fleet[i];
      }
      Lookup(fleet[1..], h)
  }

  /** The host focus: the `ALL_HOSTS` sentinel or one host's key. */
  datatype Scope = AllHosts | Host(id: HostId)

  /** The console only ever focuses the sentinel or a key of the fleet. */
  predicate ValidScope(fleet: Fleet, s: Scope)
  {
    s.Host? ==> Known(fleet, s.id)
  }

  /** The record shown while every host is in focus. */
  const Placeholder: Session :=
    Session("Multiple Hosts", "Multiple Users", "Multiple Agents", "Multiple Machines",
            Various, Mixed, VariousTimes, VariousTimes)

  /** `getCurrentSessionData()`: the placeholder for all hosts, otherwise the fleet's record of the focused host. */
  function CurrentSessionData(fleet: Fleet, focus: Scope): (r: Session)
    requires ValidScope(fleet, focus)
    ensures focus.AllHosts? ==> r == Placeholder
    ensures focus.Host? ==> r in fleet && r.host == focus.id
  {
    match focus
    case AllHosts => Placeholder
    case Host(h) => Lookup(fleet, h)
  }

  /** `getFilteredHosts()`: the whole fleet, or just the focused host's record. */
  function FilteredHosts(fleet: Fleet, focus: Scope): (r: Fleet)
    requires ValidScope(fleet, focus)
    ensures forall i :: 0 <= i < |r| ==> r[i] in fleet
    ensures focus.AllHosts? ==> r == fleet
    ensures focus.Host? ==> |r| == 1 && r[0].host == focus.id
  {
    match focus
    case AllHosts => fleet
    case Host(h) => [Lookup(fleet, h)]
  }

  /** The status column of the fleet, in fleet order. */
  function Statuses(fleet: Fleet): (sts: seq<Status>)
    ensures |sts| == |fleet|
    ensures forall i :: 0 <= i < |fleet| ==> sts[i] == fleet[i].status
  {
    seq(|fleet|, i requires 0 <= i < |fleet| => fleet[i].status)
  }

  /** `filter(s => s.status === st).length`: the multiplicity of `st` in the status column. */
  function CountStatus(fleet: Fleet, st: Status): (n: nat)
    ensures n <= |fleet|
    ensures n == multiset(Statuses(fleet))[st]
  {
    if |fleet| == 0 then 0
    else
      assert Statuses(fleet) == [fleet[0].status] + Statuses(fleet[1..]);
      (if fleet[0].status == st then 1 else 0) + CountStatus(fleet[1..], st)
  }

  /** Counting distributes over concatenation of fleets. */
  lemma {:induction false} CountStatusAppend(a: Fleet, b: Fleet, st: Status)
    ensures CountStatus(a + b, st) == CountStatus(a, st) + CountStatus(b, st)
  {
    if |a| > 0 {
      assert (a + b)[1..] == a[1..] + b;
      CountStatusAppend(a[1..], b, st);
    } else {
      assert a + b == b;
    }
  }

  /** Records with one status are disjoint from those with another: two counts never exceed the fleet. */
  lemma {:induction false} CountsWithinFleet(fleet: Fleet, s1: Status, s2: Status)
    requires s1 != s2
    ensures CountStatus(fleet, s1) + CountStatus(fleet, s2) <= |fleet|
  {
    if |fleet| > 0 {
      CountsWithinFleet(fleet[1..], s1, s2);
    }
  }

  /** The session grid's footer line. */
  datatype Footer =
    | FleetLine(total: nat, connected: nat, disconnected: nat)
    | HostLine(host: HostId, status: Status, username: string, machineName: string)

  /** The footer, read from the fleet (not from the edited working copy). */
  function FooterStats(fleet: Fleet, focus: Scope): (r: Footer)
    requires ValidScope(fleet, focus)
    ensures focus.AllHosts? ==> r == FleetLine(|fleet|, CountStatus(fleet, Connected), CountStatus(fleet, Disconnected))
    ensures focus.AllHosts? ==> r.connected + r.disconnected <= r.total
    ensures focus.Host? ==>
              && r.HostLine? && r.host == focus.id
              && exists i :: 0 <= i < |fleet| && fleet[i].host == focus.id && r.status == fleet[i].status
                             && r.username == fleet[i].username && r.machineName == fleet[i].machineName
  {
    match focus
    case AllHosts =>
      CountsWithinFleet(fleet, Connected, Disconnected);
      FleetLine(|fleet|, CountStatus(fleet, Connected), CountStatus(fleet, Disconnected))
    case Host(h) =>
      var s := Lookup(fleet, h);
      HostLine(s.host, s.status, s.username, s.machineName)
  }

  function Fixture(host: HostId, username: string, agentName: string, machineName: string,
                   port: int, status: Status, since: string, last: string): Session
  {
    Session(host, username, agentName, machineName, Number(port), status, Literal(since), Literal(last))
  }

  /** The records of the fourteen-server fixture `hostServers`, one constant per key. */
  const Server01: Session := Fixture("server-01.example.com", "admin", "SSH-Agent-001", "WORKSTATION-DEV", 22, Connected, "2025-07-29 10:30:45", "2025-07-30 09:15:23")
  const Server02: Session := Fixture("server-02.production.com", "prod-user", "SSH-Agent-002", "PROD-SERVER-01", 22, Connected, "2025-07-30 08:45:12", "2025-07-30 09:20:45")
  const Server03: Session := Fixture("server-03.staging.com", "staging-admin", "SSH-Agent-003", "STAGING-WEB-01", 2222, Disconnected, "2025-07-29 16:20:30", "2025-07-30 07:55:18")
  const Server04: Session := Fixture("server-04.database.com", "dbadmin", "SSH-Agent-004", "DB-PRIMARY-01", 22, Connected, "2025-07-30 06:00:00", "2025-07-30 09:10:33")
  const Server05: Session := Fixture("server-05.api.com", "api-service", "SSH-Agent-005", "API-GATEWAY-01", 22, Refreshed, "2025-07-30 07:30:15", "2025-07-30 09:18:42")
  const Server06: Session := Fixture("server-06.monitoring.com", "monitor", "SSH-Agent-006", "MONITOR-HUB-01", 2200, Connected, "2025-07-29 22:15:45", "2025-07-30 09:12:15")
  const Server07: Session := Fixture("server-07.backup.com", "backup-admin", "SSH-Agent-007", "BACKUP-STORAGE-01", 22, Connected, "2025-07-30 05:45:30", "2025-07-30 08:45:22")
  const Server08: Session := Fixture("server-08.analytics.com", "analytics-user", "SSH-Agent-008", "ANALYTICS-PROC-01", 22, Disconnected, "2025-07-29 14:20:10", "2025-07-30 06:30:45")
  const Server09: Session := Fixture("server-09.cache.com", "cache-admin", "SSH-Agent-009", "REDIS-CLUSTER-01", 22, Connected, "2025-07-30 08:00:20", "2025-07-30 09:22:10")
  const Server10: Session := Fixture("server-10.loadbalancer.com", "lb-operator", "SSH-Agent-010", "LOAD-BALANCER-01", 2222, Connected, "2025-07-30 07:15:40", "2025-07-30 09:19:55")
  const Server11: Session := Fixture("server-11.security.com", "security-admin", "SSH-Agent-011", "FIREWALL-MGMT-01", 22, Connected, "2025-07-29 20:30:25", "2025-07-30 09:05:30")
  const Server12: Session := Fixture("server-12.logging.com", "log-collector", "SSH-Agent-012", "LOG-AGGREGATOR-01", 22, Refreshed, "2025-07-30 06:45:15", "2025-07-30 09:17:28")
  const Server13: Session := Fixture("server-13.ci-cd.com", "devops", "SSH-Agent-013", "CI-CD-PIPELINE-01", 22, Connected, "2025-07-30 08:20:50", "2025-07-30 09:21:40")
  const Server14: Session := Fixture("server-14.testing.com", "test-runner", "SSH-Agent-014", "TEST-AUTOMATION-01", 2200, Disconnected, "2025-07-29 18:45:35", "2025-07-30 07:20:15")

  /** The fixture in key order. */
  const HostServers: Fleet := [
    Server01, Server02, Server03, Server04, Server05, Server06, Server07,
    Server08, Server09, Server10, Server11, Server12, Server13, Server14
  ]

  /** How many entries of a plain status list equal `st`. */
  function CountIn(sts: seq<Status>, st: Status): nat
  {
    if |sts| == 0 then 0 else (if sts[0] == st then 1 else 0) + CountIn(sts[1..], st)
  }

  /** Counting a fleet's statuses only needs the list of its statuses. */
  lemma {:induction false} CountFromStatuses(fleet: Fleet, sts: seq<Status>, st: Status)
    requires |sts| == |fleet|
    requires forall i :: 0 <= i < |fleet| ==> fleet[i].status == sts[i]
    ensures CountStatus(fleet, st) == CountIn(sts, st)
  {
    if |fleet| > 0 {
      CountFromStatuses(fleet[1..], sts[1..], st);
    }
  }

  /** The statuses of the fixture's records, in key order. */
  lemma FixtureStatuses()
    ensures forall i :: 0 <= i < |HostServers| ==>
              HostServers[i].status ==
                [Connected, Connected, Disconnected, Connected, Refreshed, Connected, Connected,
                 Disconnected, Connected, Connected, Connected, Refreshed, Connected, Disconnected][i]
  {
  }

  /** The fixture has fourteen hosts. */
  lemma FixtureSize()
    ensures |HostServers| == 14
  {
  }

  /** The fixture has fourteen hosts, nine of them connected and three disconnected. */
  lemma HostServersFooter()
    ensures |HostServers| == 14
    ensures FooterStats(HostServers, AllHosts) == FleetLine(14, 9, 3)
  {
    var sts := [Connected, Connected, Disconnected, Connected, Refreshed, Connected, Connected,
                Disconnected, Connected, Connected, Connected, Refreshed, Connected, Disconnected];
    FixtureStatuses();
    CountFromStatuses(HostServers, sts, Connected);
    CountFromStatuses(HostServers, sts, Disconnected);
    assert CountIn(sts, Connected) == 9 && CountIn(sts, Disconnected) == 3;
  }

  /** The two-digit server number inside a fixture key `server-NN.…`. */
  function KeyNumber(h: HostId): int
    requires |h| >= 9
  {
    ((h[7] as int) - ('0' as int)) * 10 + ((h[8] as int) - ('0' as int))
  }

  /** The fixture's first seven keys carry the server numbers 1 to 7. */
  lemma FixtureKeyNumbersLow()
    ensures forall i :: 0 <= i < 7 ==>
              |HostServers[i].host| >= 9 && KeyNumber(HostServers[i].host) == i + 1
  {
  }

  /** The fixture's last seven keys carry the server numbers 8 to 14. */
  lemma FixtureKeyNumbersHigh()
    ensures forall i :: 7 <= i < |HostServers| ==>
              |HostServers[i].host| >= 9 && KeyNumber(HostServers[i].host) == i + 1
  {
  }

  /** The fixture's fourteen keys are pairwise distinct: their server numbers differ. */
  lemma FixtureUnique()
    ensures UniqueHosts(HostServers)
  {
    FixtureKeyNumbersLow();
    FixtureKeyNumbersHigh();
  }
}

=== FILE: selection.dfy ===
/**
 Bulk selection of sessions: the `selectedSessions` object, a map from host key to
 a checkbox state. It is independent of the host focus; the console's state keeps
 the two in separate fields.
 */
module Selection {

  import opened Registry

  /** `selectedSessions`: hosts that have been ticked or unticked at least once. */
  type Checkboxes = map<HostId, bool>

  /** The hosts whose checkbox is ticked. */
  function Ticked(m: Checkboxes): set<HostId>
  {
    set h | h in m && m[h]
  }

  /** `Object.values(selectedSessions).filter(Boolean).length`. */
  function SelectedCount(m: Checkboxes): (n: nat)
    ensures n <= |m|
  {
    assert Ticked(m) <= m.Keys;
    SubsetCard(Ticked(m), m.Keys);
    |Ticked(m)|
  }

  /** `handleSessionSelect(h, on)`: one entry is written, every other entry is kept. */
  function Toggle(m: Checkboxes, h: HostId, on: bool): (r: Checkboxes)
    ensures r.Keys == m.Keys + {h}
    ensures r[h] == on
    ensures forall k :: k in m && k != h ==> r[k] == m[k]
  {
    m[h := on]
  }

  /** `handleSelectAll(on)`: a fresh map giving every host key of the fleet the same state. */
  function SelectAll(ids: seq<HostId>, on: bool): (r: Checkboxes)
    ensures forall k :: k in r <==> k in ids
    ensures forall k :: k in r ==> r[k] == on
  {
    map h | h in ids :: on
  }

  /** The "All" checkbox: every value is true and there is at least one key. */
  predicate AllChecked(m: Checkboxes)
  {
    (forall h :: h in m ==> m[h]) && |m| > 0
  }

  /** A subset is no larger than its superset, and only as large when it is the whole superset. */
  lemma {:induction false} SubsetCard<X>(a: set<X>, b: set<X>)
    requires a <= b
    ensures |a| <= |b|
    ensures |a| == |b| ==> a == b
    decreases b
  {
    if b != {} {
      var x :| x in b;
      SubsetCard(a - {x}, b - {x});
      if x in a {
        assert a == (a - {x}) + {x};
      }
      assert b == (b - {x}) + {x};
    }
  }

  /** Removing one element from a set lowers its size by one exactly when the element was there. */
  lemma CardRemove<X>(s: set<X>, x: X)
    ensures |s| == |s - {x}| + (if x in s then 1 else 0)
  {
    if x in s {
      assert s == (s - {x}) + {x};
    }
  }

  /** Ticking or unticking one host moves the count by at most one, exactly as that entry changed. */
  lemma ToggleCount(m: Checkboxes, h: HostId, on: bool)
    ensures SelectedCount(Toggle(m, h, on)) ==
            SelectedCount(m) - (if h in m && m[h] then 1 else 0) + (if on then 1 else 0)
  {
    var before, after := Ticked(m), Ticked(Toggle(m, h, on));
    assert after - {h} == before - {h};
    assert h in before <==> h in m && m[h];
    assert h in after <==> on;
    CardRemove(before, h);
    CardRemove(after, h);
  }

  /** A list of keys with no repetition has as many distinct keys as entries. */
  lemma {:induction false} DistinctCard(ids: seq<HostId>)
    requires forall i, j :: 0 <= i < j < |ids| ==> ids[i] != ids[j]
    ensures |set h | h in ids| == |ids|
  {
    if |ids| > 0 {
      var rest := ids[1..];
      DistinctCard(rest);
      assert (set h | h in ids) == (set h | h in rest) + {ids[0]};
      assert ids[0] !in rest;
    }
  }

  /** Select-all over a fleet with distinct keys ticks all of them or none of them. */
  lemma SelectAllCount(fleet: Fleet, on: bool)
    requires UniqueHosts(fleet)
    ensures SelectedCount(SelectAll(HostIds(fleet), on)) == if on then |fleet| else 0
  {
    var ids := HostIds(fleet);
    var m := SelectAll(ids, on);
    DistinctCard(ids);
    if on {
      assert Ticked(m) == set h | h in ids;
    } else {
      assert Ticked(m) == {};
    }
  }

  /** Unticking all keeps the keys that ticking all created and leaves nothing ticked. */
  lemma SelectAllRoundTrip(ids: seq<HostId>)
    ensures var all := SelectAll(ids, true);
            var none := SelectAll(ids, false);
            SelectedCount(none) == 0 && none.Keys == all.Keys
  {
    assert Ticked(SelectAll(ids, false)) == {};
  }

  /** The "All" box is checked exactly when the map is non-empty and the count equals its size. */
  lemma AllCheckedIffCount(m: Checkboxes)
    ensures AllChecked(m) <==> |m| > 0 && SelectedCount(m) == |m|
  {
    SubsetCard(Ticked(m), m.Keys);
    if |m| > 0 && SelectedCount(m) == |m| {
      forall h | h in m
        ensures m[h]
      {
        assert h in Ticked(m);
      }
    }
    if AllChecked(m) {
      assert Ticked(m) == m.Keys;
    }
  }

  /** After select-all, the "All" box shows the chosen state (for a non-empty fleet). */
  lemma AllCheckedAfterSelectAll(ids: seq<HostId>, on: bool)
    ensures AllChecked(SelectAll(ids, on)) <==> on && |ids| > 0
  {
    var m := SelectAll(ids, on);
    if |ids| > 0 {
      assert ids[0] in m;
    } else {
      assert m.Keys == {};
    }
  }
}

=== FILE: text.dfy ===
/**
 String helpers the console relies on: JavaScript's `String.prototype.trim`,
 which decides whether a broadcast draft is empty, and the decimal rendering
 of a count inside a template string.
 */
module Text {

  /** The characters `trim` removes: the ECMAScript WhiteSpace and LineTerminator code points. */
  predicate IsWhitespace(c: char)
  {
    || c == '\t' || c == '\n' || c == '\U{000B}' || c == '\U{000C}' || c == '\r' || c == ' '
    || c == '\U{00A0}' || c == '\U{1680}' || ('\U{2000}' <= c <= '\U{200A}')
    || c == '\U{2028}' || c == '\U{2029}' || c == '\U{202F}' || c == '\U{205F}'
    || c == '\U{3000}' || c == '\U{FEFF}'
  }

  /** Every character of `s` is whitespace (the empty string included). */
  predicate IsBlank(s: string)
  {
    forall i :: 0 <= i < |s| ==> IsWhitespace(s[i])
  }

  /** Drops leading whitespace: the result is the suffix of `s` after its blank prefix. */
  function TrimStart(s: string): (r: string)
    ensures |r| <= |s| && r == s[|s| - |r|..]
    ensures IsBlank(s[..|s| - |r|])
    ensures |r| > 0 ==> !IsWhitespace(r[0])
  {
    if |s| > 0 && IsWhitespace(s[0]) then TrimStart(s[1..]) else s
  }

  /** Drops trailing whitespace: the result is the prefix of `s` before its blank suffix. */
  function TrimEnd(s: string): (r: string)
    ensures |r| <= |s| && r == s[..|r|]
    ensures IsBlank(s[|r|..])
    ensures |r| > 0 ==> !IsWhitespace(r[|r| - 1])
  {
    if |s| > 0 && IsWhitespace(s[|s| - 1]) then TrimEnd(s[..|s| - 1]) else s
  }

  /** `s.trim()`: the middle of `s` between a blank prefix and a blank suffix, with no whitespace at either end. */
  function Trim(s: string): (r: string)
    ensures exists i, j :: 0 <= i <= j <= |s| && r == s[i..j] && IsBlank(s[..i]) && IsBlank(s[j..])
    ensures |r| > 0 ==> !IsWhitespace(r[0]) && !IsWhitespace(r[|r| - 1])
  {
    var t := TrimStart(s);
    var r := TrimEnd(t);
    var i := |s| - |t|;
    assert r == s[i..i + |r|] && s[i + |r|..] == t[|r|..];
    r
  }

  /** `!s.trim()` holds exactly when `s` consists of whitespace only. */
  lemma TrimEmptyIffBlank(s: string)
    ensures Trim(s) == "" <==> IsBlank(s)
  {
    var t := TrimStart(s);
    if !IsBlank(s) {
      assert s[..|s| - |t|] + t == s;
      assert t[0..] == t;
    }
  }

  /** The decimal digit for `d`. */
  function Digit(d: nat): char
    requires d < 10
  {
    "0123456789"[d]
  }

  /** The decimal rendering of `n`, as a template literal prints a non-negative integer. */
  function NatToString(n: nat): (r: string)
    ensures |r| > 0
    ensures forall i :: 0 <= i < |r| ==> '0' <= r[i] <= '9'
    ensures n > 0 ==> r[0] != '0'
  {
    if n < 10 then [Digit(n)] else NatToString(n / 10) + [Digit(n % 10)]
  }

  /** The value the decimal string `s` denotes. */
  function DigitsValue(s: string): nat
    requires forall i :: 0 <= i < |s| ==> '0' <= s[i] <= '9'
  {
    if |s| == 0 then 0 else 10 * DigitsValue(s[..|s| - 1]) + ((s[|s| - 1] as int) - ('0' as int))
  }

  /** Reading the rendering back gives the number. */
  lemma {:induction false} NatToStringRoundTrip(n: nat)
    ensures DigitsValue(NatToString(n)) == n
  {
    if n >= 10 {
      NatToStringRoundTrip(n / 10);
      var r := NatToString(n);
      assert r[..|r| - 1] == NatToString(n / 10);
    }
  }
}
